=== FILE: README.md ===
# VessMorphoVis morphology statistics, scale bar and enum parsers in Dafny

The add-on analyses vascular skeletons. A morphology is an ordered list of sections. A
section is an ordered list of samples, and a sample is a 3D point with a radius. The
analysis kernels reduce this structure to numbers and lists:

- sample counts and the per-section count distribution;
- the flattened radius list, with or without sample positions;
- counting radii below a threshold, and correcting them in place;
- section length, average radius, surface area and volume, and their per-section
  distributions;
- short-section and two-sample-section counts;
- min/max/average summaries of radii and of section lengths.

This project also models three small pure mappings from the add-on's interface:

- the choice of a "nice" scale-bar length from the size of the view;
- the colour-coding keyword parser and its menus;
- the shader keyword parser and its menu.

Modules:

- `Skeleton` (`skeleton.dfy`): points, samples, sections and morphologies, and the
  predicates on the distance and square-root parameters.
- `Sequences` and `Statistics` (`sequences.dfy`, `statistics.dfy`): counting, filtering and
  mapping over lists, plus `sum`, `min`, `max` and the mean. `RealArith` (`real_arith.dfy`)
  holds a few facts about products of reals.
- `Samples` (`samples.dfy`): the sample kernels. The zero-radius correction is a pure
  function from a section list to a section list. As in the code, the pass ends at the first
  section without samples: that section and all later ones come back unchanged.
- `Sections` (`sections.dfy`): the section kernels. A section's length, surface area and
  volume are sums over its segments (consecutive sample pairs) via one `SegmentSum`.
- `ScaleBar` (`scale_bar.dfy`): `get_user_friendly_scale_bar_length` and
  `get_scale_bar_length`.
- `ColorCoding` (`color_coding.dfy`) and `Shading` (`shading.dfy`): the constants, the menu
  id lists and the two `get_enum` parsers.

`NumberOfSamplesInSection` models `compute_number_of_samples_in_section`
(`vmv/analysis/kernels/samples.py:55-65`). `TotalNumberOfSections` models
`compute_total_number_sections` (`vmv/analysis/kernels/sections.py:153-163`). Both are
one-line helpers; their properties are stated by the members that use them in the table
below. `IsShortSection` models `is_short_section`
(`vmv/analysis/kernels/sections.py:71-96`); its properties are stated by
`Sections.ShortSectionReverse` and `Sections.TwoSampleShortSection`.

Modelling choices:

- Radii, coordinates, lengths, areas and volumes are `real`.
- The distance `(p0 - p1).length` and `math.sqrt` are passed as function parameters
  `dist` and `sqrt`. Lemmas that need them to behave state it with `NonNegativeDist`, `Symmetric`,
  `Euclidean` or `IsSqrt`.
- `math.pi` is the constant `Pi = 3.141592653589793`.
- Where the code would raise (division by zero, `min` or `max` of an empty list), the
  model has a precondition excluding that input.

Where the code differs from the add-on's own description of it, the model follows the
code:

- The lateral surface area of a segment takes the square root of `(r0 - r1)^2 + L`, with
  the segment length `L` itself, not `L^2` as the tapered-cylinder formula has it.
  `Sections.SurfaceAreaUsesLengthNotSquare` pins this down.
- The zero-radius correction stops at the first empty section instead of skipping it.
- `is_short_section`: the comment at `vmv/analysis/kernels/sections.py:79` says the test
  applies to sections with more than two samples, but the code tests `> 1`. Two-sample
  sections are therefore tested, and `Sections.TwoSampleShortSection` covers them. The
  comment at line 88 states the comparison the wrong way round: the code reports a
  section as short when its length is smaller than the sum of the end diameters.

## Model

| member | source | states |
|---|---|---|
| Samples.TotalNumberOfSamples | vmv/analysis/kernels/samples.py:25-49 | the total is the number of samples the section-by-section traversal visits, and 0 for an empty section list |
| Samples.AllSamplesInOrder | vmv/analysis/kernels/samples.py:40-49 | the traversal lists the samples of section i in order, starting after the samples of all earlier sections |
| Samples.NumberOfSamplesPerSectionDistribution | vmv/analysis/kernels/samples.py:71-83 | one entry per section, in section order, equal to that section's sample count |
| Samples.SampleCountDistributionSum | vmv/analysis/kernels/samples.py:71-83 | the per-section counts add up to the total number of samples |
| Samples.SampleRadiusDistribution | vmv/analysis/kernels/samples.py:89-102 | as many radii as samples, the k-th being the radius of the k-th sample visited |
| Samples.RadiusDistributionInOrder | vmv/analysis/kernels/samples.py:89-102 | the radius list is the in-order concatenation of the sections' radii: sample j of section i sits at the offset of the earlier sections plus j |
| Samples.SampleRadiusDistributionAlongAxes | vmv/analysis/kernels/samples.py:108-125 | one (radius, x, y, z) row per sample in traversal order, taken from that sample |
| Samples.RadiusColumnIsRadiusDistribution | vmv/analysis/kernels/samples.py:108-125 | the radius column of the positioned table is exactly the radius distribution |
| Samples.AnalyzeSamplesWithZeroRadii | vmv/analysis/kernels/samples.py:131-156 | the count is at most the list length; it is 0 iff no radius is below epsilon, and the full length iff every radius is |
| Samples.ZeroRadiiCountAppend | vmv/analysis/kernels/samples.py:131-156 | the count of a concatenation is the sum of the counts of its parts |
| Samples.ZeroRadii | vmv/analysis/kernels/samples.py:211-212 | every listed value is a radius of the input below epsilon, every input radius below epsilon is listed, and the list is as long as the zero-radius count |
| Samples.ZeroRadiiMultiplicity | vmv/analysis/kernels/samples.py:211-212 | the zero-radius list is a sub-multiset of the radii, and each radius below epsilon occurs in it exactly as often as in the radii |
| Samples.FirstEmptySection | vmv/analysis/kernels/samples.py:173-177 | every section before the index has samples, and the section at the index (if any) has none |
| Samples.CorrectSection | vmv/analysis/kernels/samples.py:179-190 | same sample count and points; a radius below epsilon becomes the mean of the section's radii before any update; every other sample is unchanged |
| Samples.CorrectSamplesWithZeroRadii | vmv/analysis/kernels/samples.py:162-190 | same number of sections; sections before the first empty one are corrected; that section and all later ones are returned unchanged |
| Samples.CorrectionEffect | vmv/analysis/kernels/samples.py:179-190 | per sample of a processed section: the point is kept, a sub-epsilon radius becomes the original section mean, and any other radius is kept |
| Samples.CorrectionPreservesCounts | vmv/analysis/kernels/samples.py:162-190 | the section count, each section's sample count and the total sample count never change |
| Samples.CorrectedRadiusBelowEpsilon | vmv/analysis/kernels/samples.py:186-190 | after correction a processed radius is still below epsilon only if its section's original mean was |
| Samples.AnalyzeSamplesRadii | vmv/analysis/kernels/samples.py:196-224 | for a morphology with samples: min and max are radii of the list and bound every radius, min <= average <= max, and the zero count is the zero-radius count of the flattened list |
| Samples.AnalyzeSamplesRadiiAverage | vmv/analysis/kernels/samples.py:196-224 | the average is the mean (sum over count) of the flattened radii of all sections |
| Samples.AnalyzeSamplesRadiiExample | vmv/analysis/kernels/samples.py:196-224 | radii 0.0001, 0.5 and 1.0 with the default epsilon give (0.0001, 1.0, 1.5001/3, 1) |
| Sections.SectionLength | vmv/analysis/kernels/sections.py:28-54 | 0 for fewer than two samples; the distance between the two points for exactly two |
| Sections.SectionLengthNonNegative | vmv/analysis/kernels/sections.py:28-54 | with a non-negative distance, no section length is negative |
| Sections.SectionLengthSplit | vmv/analysis/kernels/sections.py:40-54 | cutting a section at a sample splits its length into the lengths of the two halves |
| Sections.SectionLengthExample | vmv/analysis/kernels/sections.py:28-54 | with the Euclidean distance, samples at (0,0,0) and (3,4,0) give length 5 |
| Sections.SectionAverageRadius | vmv/analysis/kernels/sections.py:60-65 | for a section with samples, the average lies between the smallest and largest sample radius |
| Sections.SectionLengthReverse | vmv/analysis/kernels/sections.py:28-54 | with a symmetric distance, a section listed backwards has the same length |
| Sections.ShortSectionReverse | vmv/analysis/kernels/sections.py:71-96 | with a symmetric distance, a section is short iff it is short when its samples are listed backwards (same length, same pair of end diameters) |
| Sections.TwoSampleShortSection | vmv/analysis/kernels/sections.py:71-96 | a two-sample section is short iff its end points are closer than the sum of the end diameters; radii 1 and 1 at distance 1 are short |
| Sections.NumberOfShortSections | vmv/analysis/kernels/sections.py:102-122 | at most the number of sections with two or more samples, at most the section count, and 0 iff no section is short |
| Sections.NumberOfSectionsWithTwoSamples | vmv/analysis/kernels/sections.py:128-147 | at most the section count; 0 iff no section has exactly two samples; the full count iff every section has |
| Sections.SectionCountsAppend | vmv/analysis/kernels/sections.py:102-163 | the short, two-sample and total section counts all add up over a concatenation of section lists |
| Sections.SectionSurfaceArea | vmv/analysis/kernels/sections.py:169-208 | 0 for fewer than two samples; for exactly two, the one segment's lateral area pi * (r0 + r1) * sqrt((r0 - r1)^2 + L) plus its two end discs |
| Sections.SurfaceAreaNonNegative | vmv/analysis/kernels/sections.py:169-208 | with non-negative radii and distances and a true square root, no surface area is negative |
| Sections.SectionSurfaceAreaSplit | vmv/analysis/kernels/sections.py:190-205 | cutting a section at a sample splits its surface area into those of the two halves |
| Sections.SurfaceAreaUsesLengthNotSquare | vmv/analysis/kernels/sections.py:190-205 | one segment with radii 1 and length 4 has area 6 * Pi, which is what sqrt(0 + L) gives (sqrt(0 + L^2) would give 10 * Pi) |
| Sections.SectionVolume | vmv/analysis/kernels/sections.py:214-248 | 0 for fewer than two samples; for exactly two, the one segment's frustum volume (1/3) * pi * L * (r0^2 + r0 * r1 + r1^2) |
| Sections.SectionVolumeNonNegative | vmv/analysis/kernels/sections.py:214-248 | with a non-negative distance no volume is negative, whatever the signs of the radii |
| Sections.SectionVolumeSplit | vmv/analysis/kernels/sections.py:236-246 | cutting a section at a sample splits its volume into those of the two halves |
| Sections.SectionVolumeExample | vmv/analysis/kernels/sections.py:214-248 | one segment of length 2 with radii 1 and 1 has volume 2 * Pi |
| Sections.SectionsLengthDistributions | vmv/analysis/kernels/sections.py:254-266 | one entry per section, in order: that section's length |
| Sections.SectionsAverageRadiusDistributions | vmv/analysis/kernels/sections.py:272-284 | one entry per section, in order: that section's average radius |
| Sections.SectionsSurfaceAreaDistribution | vmv/analysis/kernels/sections.py:290-302 | one entry per section, in order: that section's surface area |
| Sections.SectionsVolumeDistribution | vmv/analysis/kernels/sections.py:308-320 | one entry per section, in order: that section's volume |
| Sections.AnalyzeSectionsLength | vmv/analysis/kernels/sections.py:326-357 | for a non-empty list: min and max are lengths of actual sections and bound every length, and the average is the mean (sum over count) of the length distribution and lies between min and max |
| Sections.AnalyzeSectionsLengthNonNegative | vmv/analysis/kernels/sections.py:326-357 | with a non-negative distance the minimum length is not negative |
| ScaleBar.UserFriendlyScaleBarLength | vmv/interface/common/scale_bar.py:42-66 | the result is one of 5, 10, 20, 25, 50, 100, 150; it is 5 iff the view is below 50 and 150 iff it is at least 2000; it never exceeds a view of at least 5, nor a fifth of a view of at least 50 |
| ScaleBar.ScaleBarLengthMonotone | vmv/interface/common/scale_bar.py:53-66 | a larger view never gets a shorter bar |
| ScaleBar.ScaleBarThresholds | vmv/interface/common/scale_bar.py:53-66 | 49.999 gives 5, 50 gives 10, 1999.999 gives 100 and 2000 gives 150: every threshold is strict |
| ScaleBar.TwoHundredUnreachable | vmv/interface/common/scale_bar.py:43-66 | 200, named in the function's description, is never returned |
| ScaleBar.ScaleBarLength | vmv/interface/common/scale_bar.py:72-90 | the result is a nice length; the front and side views measure bounds[1], the top view bounds[2] |
| ScaleBar.ScaleBarViewIndependence | vmv/interface/common/scale_bar.py:84-90 | front and side always agree, and the box width never matters |
| ScaleBar.ScaleBarIgnoresOtherAxis | vmv/interface/common/scale_bar.py:84-90 | the top view ignores the height; the front and side views ignore the depth |
| ScaleBar.ScaleBarGrowsWithBox | vmv/interface/common/scale_bar.py:72-90 | a taller box never shortens the front-view bar, and a deeper box never shortens the top-view bar |
| ColorCoding.SchemesDistinct | vmv/enums/color_coding.py:27-57 | the eleven scheme ids are pairwise different |
| ColorCoding.GetEnum | vmv/enums/color_coding.py:176-216 | every keyword gives one of the schemes, never the short-sections or the alignment scheme |
| ColorCoding.KeywordOf | vmv/enums/color_coding.py:179-212 | each scheme the parser can produce has a keyword paired with it in the parser's keyword table |
| ColorCoding.GetEnumIsTableLookup | vmv/enums/color_coding.py:176-216 | the parser equals a first-match scan of its keyword table, with the default scheme when nothing matches |
| ColorCoding.GetEnumOfKeyword | vmv/enums/color_coding.py:179-212 | every producible scheme comes back from its own keyword |
| ColorCoding.KeywordOfGetEnum | vmv/enums/color_coding.py:179-212 | a keyword giving a non-default scheme is that scheme's keyword, so the parser is one-to-one off the default |
| ColorCoding.GetEnumDefault | vmv/enums/color_coding.py:178-216 | the default scheme comes back iff the keyword is "default" or is not in the table |
| ColorCoding.SegmentsItemsFacts | vmv/enums/color_coding.py:62-109 | the segment menu ids are distinct and exclude short sections, number of samples and section index |
| ColorCoding.SectionsItemsFacts | vmv/enums/color_coding.py:114-164 | the section menu ids are distinct, include short sections and exclude segment index and alignment |
| ColorCoding.ParserAndMenusDisagree | vmv/enums/color_coding.py:62-216 | the parser can select segment index, which the section menu lacks, and never alignment, which the segment menu offers |
| Shading.ShadersDistinct | vmv/enums/shading_enums.py:33-78 | the sixteen shader ids are pairwise different |
| Shading.GetEnum | vmv/enums/shading_enums.py:84-117 | every keyword gives one of the shaders, never toon, marble, cracky, plastic or sub-surface scattering; "toon" gives Lambert Ward |
| Shading.KeywordOf | vmv/enums/shading_enums.py:92-115 | each producible shader other than Lambert Ward has a keyword paired with it in the parser's keyword table |
| Shading.GetEnumIsTableLookup | vmv/enums/shading_enums.py:84-117 | the parser equals a first-match scan of its keyword table, with Lambert Ward when nothing matches |
| Shading.GetEnumOfKeyword | vmv/enums/shading_enums.py:92-115 | every producible shader other than Lambert Ward comes back from its own keyword |
| Shading.KeywordOfGetEnum | vmv/enums/shading_enums.py:92-115 | a keyword giving a shader other than Lambert Ward is that shader's keyword |
| Shading.GetEnumLambertWard | vmv/enums/shading_enums.py:110-117 | Lambert Ward comes back iff the keyword is "lambert", "toon" or not in the table |
| Shading.ShaderItemsFacts | vmv/enums/shading_enums.py:108-182 | the menu ids are distinct, and every parser result is in the menu except glossy bumpy, which the parser returns but the menu lacks |
| Shading.MenuOnlyShaders | vmv/enums/shading_enums.py:122-182 | the menu offers toon, marble and cracky, which the parser never returns |

## Left out

- `vmv/file/writers/strings/strings.py`: only opens, writes and closes a file, so it is not
  part of this model.
- The Blender parts of `vmv/interface/common/scale_bar.py` (lines 96-299): they create scene
  objects and materials through the host application.
- The camera-view enumeration is not part of this model. `View` has the three views the
  function's description names (front, side, top), and every view other than front and
  side takes the depth, as the code's `else` branch does.
- The pandas `DataFrame` built at `vmv/analysis/kernels/samples.py:125` is modelled as a
  list of (radius, x, y, z) rows. Column labels and the frame type are not modelled.
- Floating-point rounding: all quantities are exact reals.
- The Euclidean norm and the square root themselves: they are the parameters `dist` and
  `sqrt`.
- The empty stub `compite_segement_length` (`vmv/analysis/kernels/sections.py:367-368`)
  has no behaviour to model.
- The `vmv.analysis.` module indirection in the distribution functions: the calls are
  modelled as direct calls.
- The labels and descriptions in the menu item tuples: only the ids are modelled.
- Sample objects shared between sections: the correction mutates samples in place. A
  sample object shared by an earlier and a later section is corrected while the earlier
  one is processed. The later section's mean then sees the corrected radius, and the
  sample is replaced again only if the earlier mean is below epsilon. The same sharing
  reaches sections after the first empty one, which the code leaves alone but whose
  shared samples it has already changed. The model has no sharing: it copies sections and
  corrects every processed section from its own original radii.
- Default arguments: `epsilon=1e-3` (`vmv/analysis/kernels/samples.py:131`, 162 and 197)
  and `view=FRONT` (`vmv/interface/common/scale_bar.py:73`) are not defaults in the
  model, since Dafny functions have none. Callers pass `Samples.DefaultEpsilon` (0.001)
  and `ScaleBar.Front` explicitly.
- Exceptions: inputs that would raise are excluded by preconditions. Arguments that are
  not strings are not modelled for the two parsers.
- Sections.SectionAverageRadius: the contract states only that the average lies between
  the smallest and largest radius. That it equals the sum over the count is its definition
  through `Statistics.Mean`, not a proved clause.
- Sections.SectionVolume: no lemma relates a section whose radii are all equal to a
  cylinder of the same length. Volume is characterised by its non-negativity, the split at
  a sample and the worked example.

=== FILE: color_coding.dfy ===
/** The colour-coding schemes of the morphology builders: the scheme identifiers, the two
    lists of schemes offered for segment-based and section-based builders, and the parser
    from command-line keywords to schemes. */
module ColorCoding {
  import opened Sequences

  /** The scheme identifiers, as the strings the interface stores. */
  const Default: string := "DEFAULT_COLOR_CODING"
  const AlternatingColors: string := "ALTERNATING_COLORS_COLOR_CODING"
  const ByRadius: string := "COLOR_CODING_BY_RADIUS_COLOR_CODING"
  const ByLength: string := "COLOR_CODING_BY_LENGTH_COLOR_CODING"
  const BySurfaceArea: string := "COLOR_CODING_BY_AREA_COLOR_CODING"
  const ByVolume: string := "COLOR_CODING_BY_VOLUME_COLOR_CODING"
  const ByNumberSamples: string := "COLOR_CODING_BY_NUMBER_SAMPLES_COLOR_CODING"
  const ShortSections: string := "SHORT_SECTION_COLOR_CODING"
  const BySectionIndex: string := "COLOR_CODING_BY_SECTION_INDEX"
  const BySegmentIndex: string := "COLOR_CODING_BY_SEGMENT_INDEX"
  const BySegmentAlignment: string := "COLOR_CODING_BY_ALIGNMENT"

  /** All eleven schemes, in declaration order. */
  const AllSchemes: seq<string> := [
    Default, AlternatingColors, ByRadius, ByLength, BySurfaceArea, ByVolume,
    ByNumberSamples, ShortSections, BySectionIndex, BySegmentIndex, BySegmentAlignment]

  /** Identifiers of the schemes offered for segment-based builders, in menu order (the
      labels and descriptions of the menu entries are not modelled). */
  const SegmentsColorCodingItems: seq<string> := [
    Default, AlternatingColors, ByRadius, ByLength, BySurfaceArea, ByVolume,
    BySegmentIndex, BySegmentAlignment]

  /** Identifiers of the schemes offered for section-based builders, in menu order. */
  const SectionsColorCodingItems: seq<string> := [
    Default, AlternatingColors, ShortSections, ByRadius, ByLength, BySurfaceArea, ByVolume,
    ByNumberSamples, BySectionIndex]

  /** The keywords the parser recognises, each with the scheme it selects, in the order
      the parser tests them. */
  const Keywords: seq<(string, string)> := [
    ("default", Default), ("alternating", AlternatingColors), ("radius", ByRadius),
    ("length", ByLength), ("area", BySurfaceArea), ("volume", ByVolume),
    ("number-samples", ByNumberSamples), ("segment-index", BySegmentIndex),
    ("section-index", BySectionIndex)]

  /** The scheme of the first keyword of `table`, from position `i` on, equal to
      `argument`, or the default scheme when there is none. */
  function LookupFrom(table: seq<(string, string)>, i: nat, argument: string): string
    decreases |table| - i
  {
    if |table| <= i then Default
    else if table[i].0 == argument then table[i].1
    else LookupFrom(table, i + 1, argument)
  }

  /** Parses a keyword into a scheme; any unrecognised keyword gives the default scheme,
      so the parser is total. It never yields the short-sections or the alignment
      scheme. */
  function GetEnum(argument: string): (r: string)
    ensures r in AllSchemes
    ensures r != ShortSections && r != BySegmentAlignment
  {
    if argument == "default" then Default
    else if argument == "alternating" then AlternatingColors
    else if argument == "radius" then ByRadius
    else if argument == "length" then ByLength
    else if argument == "area" then BySurfaceArea
    else if argument == "volume" then ByVolume
    else if argument == "number-samples" then ByNumberSamples
    else if argument == "segment-index" then BySegmentIndex
    else if argument == "section-index" then BySectionIndex
    else Default
  }

  /** The keyword that selects a scheme the parser can produce. */
  function KeywordOf(scheme: string): (keyword: string)
    requires scheme in AllSchemes && scheme != ShortSections && scheme != BySegmentAlignment
    ensures (keyword, scheme) in Keywords
  {
    if scheme == Default then "default"
    else if scheme == AlternatingColors then "alternating"
    else if scheme == ByRadius then "radius"
    else if scheme == ByLength then "length"
    else if scheme == BySurfaceArea then "area"
    else if scheme == ByVolume then "volume"
    else if scheme == ByNumberSamples then "number-samples"
    else if scheme == BySegmentIndex then "segment-index"
    else "section-index"
  }

  /** The eleven scheme identifiers are pairwise different. */
  lemma SchemesDistinct()
    ensures |AllSchemes| == 11 && Distinct(AllSchemes)
  {
  }

  /** The parser agrees with a scan of the keyword table: the first entry whose keyword
      equals the argument gives the scheme, and the default scheme is used when no entry
      matches. */
  lemma GetEnumIsTableLookup(argument: string)
    ensures GetEnum(argument) == LookupFrom(Keywords, 0, argument)
  {
    var t := Keywords;
    assert LookupFrom(t, 8, argument) == if argument == "section-index" then BySectionIndex else Default;
    assert LookupFrom(t, 7, argument) == if argument == "segment-index" then BySegmentIndex else LookupFrom(t, 8, argument);
    assert LookupFrom(t, 6, argument) == if argument == "number-samples" then ByNumberSamples else LookupFrom(t, 7, argument);
    assert LookupFrom(t, 5, argument) == if argument == "volume" then ByVolume else LookupFrom(t, 6, argument);
    assert LookupFrom(t, 4, argument) == if argument == "area" then BySurfaceArea else LookupFrom(t, 5, argument);
    assert LookupFrom(t, 3, argument) == if argument == "length" then ByLength else LookupFrom(t, 4, argument);
    assert LookupFrom(t, 2, argument) == if argument == "radius" then ByRadius else LookupFrom(t, 3, argument);
    assert LookupFrom(t, 1, argument) == if argument == "alternating" then AlternatingColors else LookupFrom(t, 2, argument);
  }

  /** Every scheme the parser can produce is selected by its keyword. */
  lemma GetEnumOfKeyword(scheme: string)
    requires scheme in AllSchemes && scheme != ShortSections && scheme != BySegmentAlignment
    ensures GetEnum(KeywordOf(scheme)) == scheme
  {
  }

  /** A keyword that selects anything but the default scheme is that scheme's keyword, so
      no two keywords select the same non-default scheme. */
  lemma KeywordOfGetEnum(argument: string)
    requires GetEnum(argument) != Default
    ensures KeywordOf(GetEnum(argument)) == argument
  {
  }

  /** The default scheme comes back exactly for "default" and for every keyword the
      parser does not know. */
  lemma GetEnumDefault(argument: string)
    ensures GetEnum(argument) == Default <==>
      argument == "default" || forall k :: k in Keywords ==> k.0 != argument
  {
  }

  /** The segment menu lists distinct schemes and offers neither the short-sections
      scheme nor the two section-only schemes (number of samples, section index). */
  lemma SegmentsItemsFacts()
    ensures Distinct(SegmentsColorCodingItems)
    ensures ShortSections !in SegmentsColorCodingItems
    ensures ByNumberSamples !in SegmentsColorCodingItems
    ensures BySectionIndex !in SegmentsColorCodingItems
  {
  }

  /** The section menu lists distinct schemes, offers the short-sections scheme and
      offers neither segment-only scheme (segment index, alignment). */
  lemma SectionsItemsFacts()
    ensures Distinct(SectionsColorCodingItems)
    ensures ShortSections in SectionsColorCodingItems
    ensures BySegmentIndex !in SectionsColorCodingItems
    ensures BySegmentAlignment !in SectionsColorCodingItems
  {
  }

  /** Parsing can select the segment-index scheme, which the section menu does not offer,
      and never the alignment scheme, which the segment menu does offer. */
  lemma ParserAndMenusDisagree()
    ensures GetEnum("segment-index") !in SectionsColorCodingItems
    ensures forall a :: GetEnum(a) != BySegmentAlignment
    ensures BySegmentAlignment in SegmentsColorCodingItems
  {
  }
}

=== FILE: real_arith.dfy ===
/** Small facts of real arithmetic that the solver does not find on its own when products
    of variables are involved. */
module RealArith {

  /** A product of two positive reals is positive. */
  lemma ProductPositive(x: real, y: real)
    requires 0.0 < x && 0.0 < y
    ensures 0.0 < x * y
  {
  }

  /** A product of two non-negative reals is non-negative. */
  lemma ProductNonNegative(x: real, y: real)
    requires 0.0 <= x && 0.0 <= y
    ensures 0.0 <= x * y
  {
  }

  /** No real square is negative. */
  lemma SquareNonNegative(x: real)
    ensures 0.0 <= x * x
  {
    if x < 0.0 {
      ProductPositive(-x, -x);
    }
  }

  /** Squaring is strictly increasing on the non-negative reals. */
  lemma SquareStrictlyMonotone(a: real, b: real)
    requires 0.0 <= a < b
    ensures a * a < b * b
  {
    calc {
      a * a;
    <=  { ProductNonNegative(a, b - a); }
      a * b;
    <   { ProductPositive(b, b - a); }
      b * b;
    }
  }

  /** Two non-negative numbers with the same square are equal. */
  lemma NonNegativeRootUnique(x: real, y: real)
    requires 0.0 <= x && 0.0 <= y && x * x == y * y
    ensures x == y
  {
    if x < y {
      SquareStrictlyMonotone(x, y);
    } else if y < x {
      SquareStrictlyMonotone(y, x);
    }
  }
}

=== FILE: samples.dfy ===
/** Sample-level kernels: sample counts, the per-section count distribution, the radius
    distribution (with and without positions), counting and correcting radii that are
    below a threshold, and the min/max/average radius summary. */
module Samples {
  import opened Skeleton
  import opened Sequences
  import opened Statistics

  /** The default threshold below which a radius is treated as a zero radius. */
  const DefaultEpsilon: real := 0.001

  /** All samples of all sections, section by section and within a section in sample
      order: the traversal order of every nested loop in this module. */
  function AllSamples(sections: seq<Section>): seq<Sample> {
    if |sections| == 0 then []
    else AllSamples(sections[..|sections| - 1]) + sections[|sections| - 1].samples
  }

  /** The traversal distributes over concatenation of section lists. */
  lemma {:induction false} AllSamplesAppend(a: seq<Section>, b: seq<Section>)
    ensures AllSamples(a + b) == AllSamples(a) + AllSamples(b)
    decreases |b|
  {
    if |b| == 0 {
      assert a + b == a;
    } else {
      var b' := b[..|b| - 1];
      assert (a + b)[..|a + b| - 1] == a + b';
      AllSamplesAppend(a, b');
    }
  }

  /** Number of samples in one section. */
  function NumberOfSamplesInSection(section: Section): nat {
    |section.samples|
  }

  /** Total number of samples, branch-point duplicates included, accumulated section by
      section; it is the number of samples the traversal visits. */
  function TotalNumberOfSamples(sections: seq<Section>): (n: nat)
    ensures n == |AllSamples(sections)|
    ensures |sections| == 0 ==> n == 0
  {
    if |sections| == 0 then 0
    else
      TotalNumberOfSamples(sections[..|sections| - 1])
        + NumberOfSamplesInSection(sections[|sections| - 1])
  }

  /** The traversal visits section `i`'s samples in order, starting at the number of
      samples of the sections before it. */
  lemma AllSamplesInOrder(sections: seq<Section>, i: nat, j: nat)
    requires i < |sections| && j < |sections[i].samples|
    ensures TotalNumberOfSamples(sections[..i]) + j < TotalNumberOfSamples(sections)
    ensures AllSamples(sections)[TotalNumberOfSamples(sections[..i]) + j] == sections[i].samples[j]
  {
    var before, here, rest := sections[..i], [sections[i]], sections[i + 1..];
    assert sections == (before + here) + rest;
    assert AllSamples(here) == sections[i].samples by {
      assert here[..0] == [];
    }
    AllSamplesAppend(before, here);
    AllSamplesAppend(before + here, rest);
    var prefix := AllSamples(before);
    assert AllSamples(sections) == prefix + sections[i].samples + AllSamples(rest);
  }

  /** One entry per section, in section order: the number of samples of that section. */
  function NumberOfSamplesPerSectionDistribution(morphology: Morphology): (data: seq<nat>)
    ensures |data| == |morphology.sectionsList|
    ensures forall i :: 0 <= i < |data| ==> data[i] == |morphology.sectionsList[i].samples|
  {
    MapSeq(morphology.sectionsList, NumberOfSamplesInSection)
  }

  /** The per-section counts add up to the total number of samples. */
  lemma {:induction false} SampleCountDistributionSum(morphology: Morphology)
    ensures SumNat(NumberOfSamplesPerSectionDistribution(morphology))
         == TotalNumberOfSamples(morphology.sectionsList)
  {
    CountsSumToTotal(morphology.sectionsList);
  }

  lemma {:induction false} CountsSumToTotal(sections: seq<Section>)
    ensures SumNat(MapSeq(sections, NumberOfSamplesInSection)) == TotalNumberOfSamples(sections)
  {
    if |sections| > 0 {
      var prefix := sections[..|sections| - 1];
      var last := NumberOfSamplesInSection(sections[|sections| - 1]);
      CountsSumToTotal(prefix);
      SumNatAppend(MapSeq(prefix, NumberOfSamplesInSection), [last]);
      assert SumNat([last]) == last by {
        assert [last][1..] == [];
      }
    }
  }

  /** The radii of all samples, section by section, in sample order. */
  function RadiiList(sections: seq<Section>): (radii: seq<real>)
    ensures |radii| == |AllSamples(sections)|
    ensures forall k :: 0 <= k < |radii| ==> radii[k] == AllSamples(sections)[k].radius
  {
    if |sections| == 0 then []
    else RadiiList(sections[..|sections| - 1]) + Radii(sections[|sections| - 1])
  }

  /** The radius distribution of a morphology: one radius per sample, as many as there
      are samples, in traversal order. */
  function SampleRadiusDistribution(morphology: Morphology): (data: seq<real>)
    ensures |data| == TotalNumberOfSamples(morphology.sectionsList)
    ensures forall k :: 0 <= k < |data| ==>
      data[k] == AllSamples(morphology.sectionsList)[k].radius
  {
    RadiiList(morphology.sectionsList)
  }

  /** The radius distribution is the in-order concatenation of the sections' radii. */
  lemma RadiusDistributionInOrder(morphology: Morphology, i: nat, j: nat)
    requires i < |morphology.sectionsList| && j < |morphology.sectionsList[i].samples|
    ensures var offset := TotalNumberOfSamples(morphology.sectionsList[..i]);
      offset + j < |SampleRadiusDistribution(morphology)|
      && SampleRadiusDistribution(morphology)[offset + j]
         == morphology.sectionsList[i].samples[j].radius
  {
    AllSamplesInOrder(morphology.sectionsList, i, j);
  }

  /** One row of the positioned radius distribution: a radius and the sample's X, Y, Z. */
  datatype RadiusRow = RadiusRow(radius: real, x: real, y: real, z: real)

  /** The rows of one section, in sample order. */
  function SectionRows(section: Section): (rows: seq<RadiusRow>)
    ensures |rows| == |section.samples|
    ensures forall j :: 0 <= j < |rows| ==> rows[j] == RadiusRow(
      section.samples[j].radius, section.samples[j].point.x,
      section.samples[j].point.y, section.samples[j].point.z)
  {
    MapSeq(section.samples,
      (s: Sample) => RadiusRow(s.radius, s.point.x, s.point.y, s.point.z))
  }

  /** The ['Radius', 'X', 'Y', 'Z'] table of all samples in traversal order. */
  function SampleRadiusDistributionAlongAxes(morphology: Morphology): (rows: seq<RadiusRow>)
    ensures |rows| == TotalNumberOfSamples(morphology.sectionsList)
    ensures forall k :: 0 <= k < |rows| ==>
      var s := AllSamples(morphology.sectionsList)[k];
      rows[k] == RadiusRow(s.radius, s.point.x, s.point.y, s.point.z)
  {
    RowsOf(morphology.sectionsList)
  }

  /** One (radius, x, y, z) row per sample of a section list, in flattening order. */
  function RowsOf(sections: seq<Section>): (rows: seq<RadiusRow>)
    ensures |rows| == |AllSamples(sections)|
    ensures forall k :: 0 <= k < |rows| ==>
      var s := AllSamples(sections)[k];
      rows[k] == RadiusRow(s.radius, s.point.x, s.point.y, s.point.z)
  {
    if |sections| == 0 then []
    else RowsOf(sections[..|sections| - 1]) + SectionRows(sections[|sections| - 1])
  }

  /** The 'Radius' column of the positioned table is the radius distribution. */
  lemma RadiusColumnIsRadiusDistribution(morphology: Morphology)
    ensures MapSeq(SampleRadiusDistributionAlongAxes(morphology), (row: RadiusRow) => row.radius)
         == SampleRadiusDistribution(morphology)
  {
  }

  /** Number of radii strictly below `epsilon`. */
  function AnalyzeSamplesWithZeroRadii(radii: seq<real>, epsilon: real): (n: nat)
    ensures n <= |radii|
    ensures n == 0 <==> forall k :: 0 <= k < |radii| ==> epsilon <= radii[k]
    ensures n == |radii| <==> forall k :: 0 <= k < |radii| ==> radii[k] < epsilon
  {
    CountWhere(radii, (r: real) => r < epsilon)
  }

  /** The zero-radius count of a concatenation is the sum of the counts of its parts. */
  lemma ZeroRadiiCountAppend(a: seq<real>, b: seq<real>, epsilon: real)
    ensures AnalyzeSamplesWithZeroRadii(a + b, epsilon)
         == AnalyzeSamplesWithZeroRadii(a, epsilon) + AnalyzeSamplesWithZeroRadii(b, epsilon)
  {
    CountWhereAppend(a, b, (r: real) => r < epsilon);
  }

  /** The radii strictly below `epsilon`, in order: every one of them is a radius of the
      list, and every radius of the list below `epsilon` is among them. */
  function ZeroRadii(radii: seq<real>, epsilon: real): (zero: seq<real>)
    ensures forall k :: 0 <= k < |zero| ==> zero[k] < epsilon
    ensures forall k :: 0 <= k < |zero| ==> zero[k] in radii
    ensures forall r :: r in radii && r < epsilon ==> r in zero
    ensures |zero| == AnalyzeSamplesWithZeroRadii(radii, epsilon)
  {
    FilterLengthIsCount(radii, (r: real) => r < epsilon);
    Filter(radii, (r: real) => r < epsilon)
  }

  /** The zero radii are a sub-multiset of the radii, and each radius below `epsilon` is
      listed exactly as many times as it occurs among the radii (none, if it is not one). */
  lemma ZeroRadiiMultiplicity(radii: seq<real>, epsilon: real)
    ensures multiset(ZeroRadii(radii, epsilon)) <= multiset(radii)
    ensures forall r :: r < epsilon ==> multiset(ZeroRadii(radii, epsilon))[r] == multiset(radii)[r]
  {
    FilterMultiset(radii, (r: real) => r < epsilon);
  }

  /** Index of the first section without samples, or the number of sections if every
      section has samples. */
  function FirstEmptySection(sections: seq<Section>): (k: nat)
    ensures k <= |sections|
    ensures forall i :: 0 <= i < k ==> |sections[i].samples| > 0
    ensures k < |sections| ==> |sections[k].samples| == 0
  {
    if |sections| == 0 || |sections[0].samples| == 0 then 0
    else 1 + FirstEmptySection(sections[1..])
  }

  /** One sample after correction against a section mean computed beforehand. */
  function CorrectRadius(sample: Sample, mean: real, epsilon: real): Sample {
    if sample.radius < epsilon then Sample(sample.point, mean) else sample
  }

  /** Corrects one non-empty section: every radius below `epsilon` becomes the mean of the
      section's radii as they were before any update; everything else is kept. */
  function CorrectSection(section: Section, epsilon: real): (r: Section)
    requires |section.samples| > 0
    ensures |r.samples| == |section.samples|
    ensures forall j :: 0 <= j < |r.samples| ==>
      r.samples[j].point == section.samples[j].point
    ensures forall j :: 0 <= j < |r.samples| ==>
      if section.samples[j].radius < epsilon
      then r.samples[j].radius == Mean(Radii(section))
      else r.samples[j] == section.samples[j]
  {
    var mean := Mean(Radii(section));
    Section(MapSeq(section.samples, (s: Sample) => CorrectRadius(s, mean, epsilon)))
  }

  /** The zero-radius correction pass. Sections are corrected one after the other until
      the first section without samples; the pass ends there, so that section and all
      later ones are returned unchanged. */
  function CorrectSamplesWithZeroRadii(sections: seq<Section>, epsilon: real)
    : (r: seq<Section>)
    ensures |r| == |sections|
    ensures forall i :: 0 <= i < FirstEmptySection(sections) ==>
      r[i] == CorrectSection(sections[i], epsilon)
    ensures forall i :: FirstEmptySection(sections) <= i < |sections| ==> r[i] == sections[i]
  {
    if |sections| == 0 || |sections[0].samples| == 0 then sections
    else [CorrectSection(sections[0], epsilon)] + CorrectSamplesWithZeroRadii(sections[1..], epsilon)
  }

  /** Sample-level effect of the correction on the sections it processes: a radius below
      `epsilon` is replaced by the section's original mean radius; other samples and all
      points are unchanged; no section gains or loses samples. */
  lemma CorrectionEffect(sections: seq<Section>, epsilon: real, i: nat, j: nat)
    requires i < FirstEmptySection(sections) && j < |sections[i].samples|
    ensures var r := CorrectSamplesWithZeroRadii(sections, epsilon);
      var before := sections[i].samples[j];
      |r[i].samples| == |sections[i].samples|
      && r[i].samples[j].point == before.point
      && (before.radius < epsilon ==> r[i].samples[j].radius == Mean(Radii(sections[i])))
      && (epsilon <= before.radius ==> r[i].samples[j].radius == before.radius)
  {
  }

  /** Two section lists whose sections pairwise have equally many samples have the same
      total number of samples. */
  lemma {:induction false} SameShapeSameTotal(a: seq<Section>, b: seq<Section>)
    requires |a| == |b|
    requires forall i :: 0 <= i < |a| ==> |a[i].samples| == |b[i].samples|
    ensures TotalNumberOfSamples(a) == TotalNumberOfSamples(b)
  {
    if |a| > 0 {
      SameShapeSameTotal(a[..|a| - 1], b[..|b| - 1]);
    }
  }

  /** The correction never changes the number of sections, the number of samples of any
      section, or the total number of samples. */
  lemma CorrectionPreservesCounts(sections: seq<Section>, epsilon: real)
    ensures var r := CorrectSamplesWithZeroRadii(sections, epsilon);
      |r| == |sections|
      && (forall i :: 0 <= i < |r| ==> |r[i].samples| == |sections[i].samples|)
      && TotalNumberOfSamples(r) == TotalNumberOfSamples(sections)
  {
    var r := CorrectSamplesWithZeroRadii(sections, epsilon);
    SameShapeSameTotal(r, sections);
  }

  /** After the correction, a processed sample can still be below `epsilon` only if the
      mean of its section was. */
  lemma CorrectedRadiusBelowEpsilon(sections: seq<Section>, epsilon: real, i: nat, j: nat)
    requires i < FirstEmptySection(sections) && j < |sections[i].samples|
    ensures CorrectSamplesWithZeroRadii(sections, epsilon)[i].samples[j].radius < epsilon
        ==> Mean(Radii(sections[i])) < epsilon
  {
  }

  /** Minimum, maximum and average radius, and the number of zero radii. */
  datatype RadiiSummary = RadiiSummary(minimum: real, maximum: real, average: real, zeroRadii: nat)

  /** Summary of all the radii of a non-empty morphology. */
  function AnalyzeSamplesRadii(sections: seq<Section>, epsilon: real): (r: RadiiSummary)
    requires TotalNumberOfSamples(sections) > 0
    ensures var radii := RadiiList(sections);
      && r.minimum in radii && r.maximum in radii
      && (forall k :: 0 <= k < |radii| ==> r.minimum <= radii[k] <= r.maximum)
      && r.minimum <= r.average <= r.maximum
      && r.zeroRadii == AnalyzeSamplesWithZeroRadii(radii, epsilon)
  {
    var radii := RadiiList(sections);
    var zero := ZeroRadii(radii, epsilon);
    MeanBetweenMinAndMax(radii);
    RadiiSummary(Min(radii), Max(radii), Mean(radii), |zero|)
  }

  /** The summary's average is the mean of all the radii of the morphology, each sample
      weighing the same whatever its section. */
  lemma AnalyzeSamplesRadiiAverage(sections: seq<Section>, epsilon: real)
    requires TotalNumberOfSamples(sections) > 0
    ensures AnalyzeSamplesRadii(sections, epsilon).average == Mean(RadiiList(sections))
  {
  }

  /** Radii 0.0001, 0.5 and 1.0 summarise to (0.0001, 1.0, 1.5001 / 3, 1). */
  lemma AnalyzeSamplesRadiiExample(p: Point)
    ensures var section := Section([Sample(p, 0.0001), Sample(p, 0.5), Sample(p, 1.0)]);
      AnalyzeSamplesRadii([section], DefaultEpsilon)
        == RadiiSummary(0.0001, 1.0, 1.5001 / 3.0, 1)
  {
    var section := Section([Sample(p, 0.0001), Sample(p, 0.5), Sample(p, 1.0)]);
    var radii := [0.0001, 0.5, 1.0];
    assert [section][..0] == [];
    assert RadiiList([section]) == radii;
    assert radii[1..] == [0.5, 1.0] && radii[1..][1..] == [1.0];
    assert Sum(radii) == 1.5001;
    assert Min(radii) == 0.0001 && Max(radii) == 1.0;
    assert CountWhere(radii[1..][1..], (r: real) => r < DefaultEpsilon) == 0;
    assert AnalyzeSamplesWithZeroRadii(radii, DefaultEpsilon) == 1;
  }
}

=== FILE: scale_bar.dfy ===
/** Choice of the length of the scale bar drawn under a rendering: a step function from the
    extent of the scene along the measured axis to one of seven "nice" lengths, and the
    choice of that axis from the camera view. */
module ScaleBar {

  /** The lengths, in microns, that a scale bar can take. */
  const NiceLengths: set<int> := {5, 10, 20, 25, 50, 100, 150}

  /** The user-friendly scale bar length for a view of the given size. Every bound is
      strict: a size equal to a threshold already takes the next length. */
  function UserFriendlyScaleBarLength(viewLength: real): (r: int)
    ensures r in NiceLengths
    ensures viewLength < 50.0 <==> r == 5
    ensures 2000.0 <= viewLength <==> r == 150
    ensures 5.0 <= viewLength ==> (r as real) <= viewLength
    ensures 50.0 <= viewLength ==> 5.0 * (r as real) <= viewLength
  {
    if viewLength < 50.0 then 5
    else if viewLength < 150.0 then 10
    else if viewLength < 250.0 then 20
    else if viewLength < 500.0 then 25
    else if viewLength < 1000.0 then 50
    else if viewLength < 2000.0 then 100
    else 150
  }

  /** A larger view never gets a shorter scale bar. */
  lemma ScaleBarLengthMonotone(a: real, b: real)
    requires a <= b
    ensures UserFriendlyScaleBarLength(a) <= UserFriendlyScaleBarLength(b)
  {
  }

  /** The thresholds: just below 50 gives 5, exactly 50 gives 10, just below 2000 gives
      100 and exactly 2000 gives 150. */
  lemma ScaleBarThresholds()
    ensures UserFriendlyScaleBarLength(49.999) == 5
    ensures UserFriendlyScaleBarLength(50.0) == 10
    ensures UserFriendlyScaleBarLength(1999.999) == 100
    ensures UserFriendlyScaleBarLength(2000.0) == 150
  {
  }

  /** 200, although named among the user-friendly lengths in the function's own
      description, is never chosen. */
  lemma TwoHundredUnreachable(viewLength: real)
    ensures UserFriendlyScaleBarLength(viewLength) != 200
  {
  }

  /** The camera views the scale bar is drawn for. */
  datatype View = Front | Side | Top

  /** The extents of the axis-aligned bounding box of the scene along x, y and z. */
  datatype BoundingBox = BoundingBox(bounds: Extents)
  datatype Extents = Extents(x: real, y: real, z: real)

  /** The extent at position `i` of the bounds vector (0 is x, 1 is y, 2 is z). */
  function Bound(box: BoundingBox, i: nat): real
    requires i < 3
  {
    if i == 0 then box.bounds.x else if i == 1 then box.bounds.y else box.bounds.z
  }

  /** Scale bar length for a bounding box seen from a view: the front and side views
      measure the height (`bounds[1]`), every other view the depth (`bounds[2]`). The
      width never matters. */
  function ScaleBarLength(box: BoundingBox, view: View): (r: int)
    ensures r in NiceLengths
    ensures view == Front || view == Side ==> r == UserFriendlyScaleBarLength(Bound(box, 1))
    ensures view == Top ==> r == UserFriendlyScaleBarLength(Bound(box, 2))
  {
    if view == Front || view == Side then UserFriendlyScaleBarLength(box.bounds.y)
    else UserFriendlyScaleBarLength(box.bounds.z)
  }

  /** The front and side views always get the same scale bar, and changing the width of
      the box changes no view's scale bar. */
  lemma ScaleBarViewIndependence(box: BoundingBox, width: real, view: View)
    ensures ScaleBarLength(box, Front) == ScaleBarLength(box, Side)
    ensures ScaleBarLength(BoundingBox(box.bounds.(x := width)), view) == ScaleBarLength(box, view)
  {
  }

  /** The top view ignores the height and the front and side views ignore the depth. */
  lemma ScaleBarIgnoresOtherAxis(box: BoundingBox, other: real)
    ensures ScaleBarLength(BoundingBox(box.bounds.(y := other)), Top) == ScaleBarLength(box, Top)
    ensures ScaleBarLength(BoundingBox(box.bounds.(z := other)), Front) == ScaleBarLength(box, Front)
    ensures ScaleBarLength(BoundingBox(box.bounds.(z := other)), Side) == ScaleBarLength(box, Side)
  {
  }

  /** Growing the measured extent never shortens the scale bar: a taller box gets at
      least as long a bar in the front view, a deeper one in the top view. */
  lemma ScaleBarGrowsWithBox(box: BoundingBox, taller: real, deeper: real)
    requires box.bounds.y <= taller && box.bounds.z <= deeper
    ensures ScaleBarLength(box, Front) <= ScaleBarLength(BoundingBox(box.bounds.(y := taller)), Front)
    ensures ScaleBarLength(box, Top) <= ScaleBarLength(BoundingBox(box.bounds.(z := deeper)), Top)
  {
    ScaleBarLengthMonotone(box.bounds.y, taller);
    ScaleBarLengthMonotone(box.bounds.z, deeper);
  }
}

=== FILE: sections.dfy ===
/** Section-level kernels: section length, average radius, short-section detection, the
    section counts, surface area and volume of the tapered-cylinder segments, the
    per-section distributions and the min/max/average length summary. */
module Sections {
  import opened Skeleton
  import opened Sequences
  import opened Statistics
  import opened RealArith

  /** The sum, over the segments of a section (each pair of consecutive samples), of
      `f(sample i, sample i + 1)`, accumulated from the first segment to the last. */
  function SegmentSum(samples: seq<Sample>, f: (Sample, Sample) -> real): real
    decreases |samples|
  {
    if |samples| < 2 then 0.0
    else SegmentSum(samples[..|samples| - 1], f) + f(samples[|samples| - 2], samples[|samples| - 1])
  }

  /** Cutting a chain at sample `k` (kept in both halves) splits its segment sum. */
  lemma {:induction false} SegmentSumSplit(samples: seq<Sample>, f: (Sample, Sample) -> real, k: nat)
    requires k < |samples|
    ensures SegmentSum(samples[..k + 1], f) + SegmentSum(samples[k..], f) == SegmentSum(samples, f)
    decreases |samples|
  {
    var n := |samples|;
    if k == n - 1 {
      assert samples[..k + 1] == samples;
    } else {
      var prefix := samples[..n - 1];
      SegmentSumSplit(prefix, f, k);
      assert prefix[..k + 1] == samples[..k + 1];
      var tail := samples[k..];
      assert tail[..|tail| - 1] == prefix[k..];
      assert tail[|tail| - 2] == samples[n - 2] && tail[|tail| - 1] == samples[n - 1];
    }
  }

  /** A segment sum of non-negative terms is non-negative. */
  lemma {:induction false} SegmentSumNonNegative(samples: seq<Sample>, f: (Sample, Sample) -> real)
    requires forall i :: 0 <= i < |samples| - 1 ==> 0.0 <= f(samples[i], samples[i + 1])
    ensures 0.0 <= SegmentSum(samples, f)
    decreases |samples|
  {
    if |samples| >= 2 {
      var prefix := samples[..|samples| - 1];
      assert forall i :: 0 <= i < |prefix| ==> prefix[i] == samples[i];
      SegmentSumNonNegative(prefix, f);
      assert 0.0 <= f(samples[|samples| - 2], samples[|samples| - 1]);
    }
  }

  /** A chain of two samples has one segment. */
  lemma SegmentSumOfOneSegment(samples: seq<Sample>, f: (Sample, Sample) -> real)
    ensures |samples| == 2 ==> SegmentSum(samples, f) == f(samples[0], samples[1])
  {
    if |samples| == 2 {
      assert |samples[..1]| == 1;
    }
  }

  /** Length of one segment: the distance between its two sample points. */
  function SegmentLength(dist: DistanceFunction): (Sample, Sample) -> real {
    (a: Sample, b: Sample) => dist(a.point, b.point)
  }

  /** Length of a section: the sum of the distances between consecutive samples. */
  function SectionLength(section: Section, dist: DistanceFunction): (length: real)
    ensures |section.samples| < 2 ==> length == 0.0
    ensures |section.samples| == 2 ==> length == dist(section.samples[0].point, section.samples[1].point)
  {
    SegmentSumOfOneSegment(section.samples, SegmentLength(dist));
    SegmentSum(section.samples, SegmentLength(dist))
  }

  /** With a distance that is never negative, no section has a negative length. */
  lemma SectionLengthNonNegative(section: Section, dist: DistanceFunction)
    requires NonNegativeDist(dist)
    ensures 0.0 <= SectionLength(section, dist)
  {
    var s := section.samples;
    forall i | 0 <= i < |s| - 1
      ensures 0.0 <= SegmentLength(dist)(s[i], s[i + 1])
    {
      assert 0.0 <= dist(s[i].point, s[i + 1].point);
    }
    SegmentSumNonNegative(s, SegmentLength(dist));
  }

  /** Cutting a section at sample `k` (kept in both halves) splits its length. */
  lemma SectionLengthSplit(section: Section, dist: DistanceFunction, k: nat)
    requires k < |section.samples|
    ensures SectionLength(Section(section.samples[..k + 1]), dist)
          + SectionLength(Section(section.samples[k..]), dist)
         == SectionLength(section, dist)
  {
    SegmentSumSplit(section.samples, SegmentLength(dist), k);
  }

  /** With the Euclidean distance, samples at (0, 0, 0) and (3, 4, 0) are 5 apart. */
  lemma SectionLengthExample(dist: DistanceFunction, r0: real, r1: real)
    requires Euclidean(dist)
    ensures SectionLength(Section([Sample(Point(0.0, 0.0, 0.0), r0), Sample(Point(3.0, 4.0, 0.0), r1)]), dist) == 5.0
  {
    var d := dist(Point(0.0, 0.0, 0.0), Point(3.0, 4.0, 0.0));
    assert 0.0 <= d && d * d == 25.0 by {
      assert SquaredDistance(Point(0.0, 0.0, 0.0), Point(3.0, 4.0, 0.0)) == 25.0;
    }
    NonNegativeRootUnique(d, 5.0);
  }

  /** Average radius of a non-empty section: the sum of its radii over their number. It
      lies between the smallest and the largest sample radius. */
  function SectionAverageRadius(section: Section): (average: real)
    requires |section.samples| > 0
    ensures Min(Radii(section)) <= average <= Max(Radii(section))
  {
    MeanBetweenMinAndMax(Radii(section));
    Mean(Radii(section))
  }

  /** A section is short when it has at least two samples and is shorter than the sum of
      the diameters of its first and last samples. */
  predicate IsShortSection(section: Section, dist: DistanceFunction) {
    if |section.samples| > 1 then
      var diametersSum := (section.samples[0].radius + section.samples[|section.samples| - 1].radius) * 2.0;
      SectionLength(section, dist) < diametersSum
    else false
  }

  /** With a symmetric distance, walking a chain of samples backwards gives the same
      total segment length. */
  lemma {:induction false} SegmentLengthSumReverse(samples: seq<Sample>, dist: DistanceFunction)
    requires Symmetric(dist)
    ensures SegmentSum(Reverse(samples), SegmentLength(dist)) == SegmentSum(samples, SegmentLength(dist))
    decreases |samples|
  {
    var n, f := |samples|, SegmentLength(dist);
    if n >= 2 {
      var r, prefix := Reverse(samples), samples[..n - 1];
      SegmentLengthSumReverse(prefix, dist);
      SegmentSumSplit(r, f, 1);
      assert r[1..] == Reverse(prefix);
      SegmentSumOfOneSegment(r[..2], f);
      assert f(r[0], r[1]) == f(samples[n - 2], samples[n - 1]) by {
        assert dist(r[0].point, r[1].point) == dist(r[1].point, r[0].point);
      }
    }
  }

  /** With a symmetric distance, a section and its reverse have the same length. */
  lemma SectionLengthReverse(section: Section, dist: DistanceFunction)
    requires Symmetric(dist)
    ensures SectionLength(Section(Reverse(section.samples)), dist) == SectionLength(section, dist)
  {
    SegmentLengthSumReverse(section.samples, dist);
  }

  /** With a symmetric distance, whether a section is short does not depend on the
      direction its samples are listed in: the length, and the pair of end radii, are the
      same both ways. */
  lemma ShortSectionReverse(section: Section, dist: DistanceFunction)
    requires Symmetric(dist)
    ensures IsShortSection(Section(Reverse(section.samples)), dist) == IsShortSection(section, dist)
  {
    SectionLengthReverse(section, dist);
  }

  /** A two-sample section is short exactly when its end points are closer than the sum of
      its end diameters; radii 1 and 1 at distance 1 make a short section. */
  lemma TwoSampleShortSection(a: Sample, b: Sample, dist: DistanceFunction)
    ensures IsShortSection(Section([a, b]), dist)
        <==> dist(a.point, b.point) < 2.0 * a.radius + 2.0 * b.radius
    ensures dist(a.point, b.point) == 1.0 && a.radius == 1.0 && b.radius == 1.0 ==>
      IsShortSection(Section([a, b]), dist)
  {
  }

  /** Number of sections in the list. */
  function TotalNumberOfSections(sections: seq<Section>): nat {
    |sections|
  }

  /** Number of short sections: at most the number of sections with two or more samples,
      and zero exactly when no section is short. */
  function NumberOfShortSections(sections: seq<Section>, dist: DistanceFunction): (n: nat)
    ensures n <= CountWhere(sections, (s: Section) => 2 <= |s.samples|)
    ensures n <= TotalNumberOfSections(sections)
    ensures n == 0 <==> forall i :: 0 <= i < |sections| ==> !IsShortSection(sections[i], dist)
  {
    CountWhereMonotone(sections, (s: Section) => IsShortSection(s, dist), (s: Section) => 2 <= |s.samples|);
    CountWhere(sections, (s: Section) => IsShortSection(s, dist))
  }

  /** Number of sections with exactly two samples. */
  function NumberOfSectionsWithTwoSamples(sections: seq<Section>): (n: nat)
    ensures n <= TotalNumberOfSections(sections)
    ensures n == 0 <==> forall i :: 0 <= i < |sections| ==> |sections[i].samples| != 2
    ensures n == |sections| <==> forall i :: 0 <= i < |sections| ==> |sections[i].samples| == 2
  {
    CountWhere(sections, (s: Section) => |s.samples| == 2)
  }

  /** Both counts add up over a concatenation of section lists. */
  lemma SectionCountsAppend(a: seq<Section>, b: seq<Section>, dist: DistanceFunction)
    ensures NumberOfShortSections(a + b, dist)
         == NumberOfShortSections(a, dist) + NumberOfShortSections(b, dist)
    ensures NumberOfSectionsWithTwoSamples(a + b)
         == NumberOfSectionsWithTwoSamples(a) + NumberOfSectionsWithTwoSamples(b)
    ensures TotalNumberOfSections(a + b) == TotalNumberOfSections(a) + TotalNumberOfSections(b)
  {
    CountWhereAppend(a, b, (s: Section) => IsShortSection(s, dist));
    CountWhereAppend(a, b, (s: Section) => |s.samples| == 2);
  }

  /** Lateral area of one tapered-cylinder segment plus the areas of its two end discs. The
      square root is taken of `(r0 - r1)^2 + L`, with the segment length `L` itself (not
      its square), as the kernel computes it. */
  function SegmentSurfaceArea(dist: DistanceFunction, sqrt: SqrtFunction): (Sample, Sample) -> real {
    (a: Sample, b: Sample) =>
      var length := dist(a.point, b.point);
      var rSum := a.radius + b.radius;
      var rDiff := a.radius - b.radius;
      Pi * rSum * sqrt(rDiff * rDiff + length) + Pi * (a.radius * a.radius + b.radius * b.radius)
  }

  /** Surface area of a section: zero below two samples, otherwise the sum of the segment
      surface areas. */
  function SectionSurfaceArea(section: Section, dist: DistanceFunction, sqrt: SqrtFunction): (area: real)
    ensures |section.samples| < 2 ==> area == 0.0
    ensures |section.samples| == 2 ==>
      area == SegmentSurfaceArea(dist, sqrt)(section.samples[0], section.samples[1])
  {
    SegmentSumOfOneSegment(section.samples, SegmentSurfaceArea(dist, sqrt));
    if |section.samples| < 2 then 0.0
    else SegmentSum(section.samples, SegmentSurfaceArea(dist, sqrt))
  }

  /** With non-negative radii and distances and a square root that is never negative, no
      section has a negative surface area. */
  lemma SurfaceAreaNonNegative(section: Section, dist: DistanceFunction, sqrt: SqrtFunction)
    requires NonNegativeDist(dist) && IsSqrt(sqrt) && NonNegativeRadii(section)
    ensures 0.0 <= SectionSurfaceArea(section, dist, sqrt)
  {
    var s := section.samples;
    var f := SegmentSurfaceArea(dist, sqrt);
    forall i | 0 <= i < |s| - 1
      ensures 0.0 <= f(s[i], s[i + 1])
    {
      var r0, r1, length := s[i].radius, s[i + 1].radius, dist(s[i].point, s[i + 1].point);
      var root := sqrt((r0 - r1) * (r0 - r1) + length);
      assert 0.0 <= root;
      assert 0.0 <= Pi * (r0 + r1) by {
        assert 0.0 <= r0 + r1;
      }
      assert 0.0 <= Pi * (r0 + r1) * root;
      assert 0.0 <= Pi * (r0 * r0 + r1 * r1);
    }
    SegmentSumNonNegative(s, f);
  }

  /** Cutting a section at sample `k` (kept in both halves) splits its surface area. */
  lemma SectionSurfaceAreaSplit(section: Section, dist: DistanceFunction, sqrt: SqrtFunction, k: nat)
    requires k < |section.samples|
    ensures SectionSurfaceArea(Section(section.samples[..k + 1]), dist, sqrt)
          + SectionSurfaceArea(Section(section.samples[k..]), dist, sqrt)
         == SectionSurfaceArea(section, dist, sqrt)
  {
    SegmentSumSplit(section.samples, SegmentSurfaceArea(dist, sqrt), k);
  }

  /** A single segment with both radii 1 and length 4 has area 6 * Pi as written
      (2 * Pi * sqrt(0 + 4) + 2 * Pi); with the square of the length under the root it
      would be 10 * Pi. */
  lemma SurfaceAreaUsesLengthNotSquare(a: Sample, b: Sample, dist: DistanceFunction, sqrt: SqrtFunction)
    requires IsSqrt(sqrt)
    requires a.radius == 1.0 && b.radius == 1.0 && dist(a.point, b.point) == 4.0
    ensures SectionSurfaceArea(Section([a, b]), dist, sqrt) == 6.0 * Pi
  {
    var root := sqrt(4.0);
    assert 0.0 <= root && root * root == 4.0;
    NonNegativeRootUnique(root, 2.0);
    SegmentSumOfOneSegment([a, b], SegmentSurfaceArea(dist, sqrt));
  }

  /** Volume of one segment as a frustum of a cone: (1/3) * Pi * L * (r0^2 + r0 * r1 + r1^2). */
  function SegmentVolume(dist: DistanceFunction): (Sample, Sample) -> real {
    (a: Sample, b: Sample) =>
      (1.0 / 3.0) * Pi * dist(a.point, b.point)
        * (a.radius * a.radius + a.radius * b.radius + b.radius * b.radius)
  }

  /** Volume of a section: zero below two samples, otherwise the sum of the segment
      volumes. */
  function SectionVolume(section: Section, dist: DistanceFunction): (volume: real)
    ensures |section.samples| < 2 ==> volume == 0.0
    ensures |section.samples| == 2 ==>
      volume == SegmentVolume(dist)(section.samples[0], section.samples[1])
  {
    SegmentSumOfOneSegment(section.samples, SegmentVolume(dist));
    if |section.samples| < 2 then 0.0
    else SegmentSum(section.samples, SegmentVolume(dist))
  }

  /** `r0^2 + r0 * r1 + r1^2` is never negative, whatever the signs of the radii. */
  lemma FrustumFactorNonNegative(r0: real, r1: real)
    ensures 0.0 <= r0 * r0 + r0 * r1 + r1 * r1
  {
    var sum := r0 + r1;
    SquareNonNegative(r0);
    SquareNonNegative(r1);
    SquareNonNegative(sum);
    assert sum * sum == r0 * r0 + 2.0 * (r0 * r1) + r1 * r1;
  }

  /** With a distance that is never negative, no section has a negative volume. */
  lemma SectionVolumeNonNegative(section: Section, dist: DistanceFunction)
    requires NonNegativeDist(dist)
    ensures 0.0 <= SectionVolume(section, dist)
  {
    var s := section.samples;
    var f := SegmentVolume(dist);
    forall i | 0 <= i < |s| - 1
      ensures 0.0 <= f(s[i], s[i + 1])
    {
      var r0, r1, length := s[i].radius, s[i + 1].radius, dist(s[i].point, s[i + 1].point);
      FrustumFactorNonNegative(r0, r1);
      var factor := r0 * r0 + r0 * r1 + r1 * r1;
      assert 0.0 <= (1.0 / 3.0) * Pi * length;
      assert 0.0 <= (1.0 / 3.0) * Pi * length * factor;
    }
    SegmentSumNonNegative(s, f);
  }

  /** Cutting a section at sample `k` (kept in both halves) splits its volume. */
  lemma SectionVolumeSplit(section: Section, dist: DistanceFunction, k: nat)
    requires k < |section.samples|
    ensures SectionVolume(Section(section.samples[..k + 1]), dist)
          + SectionVolume(Section(section.samples[k..]), dist)
         == SectionVolume(section, dist)
  {
    SegmentSumSplit(section.samples, SegmentVolume(dist), k);
  }

  /** One segment of length 2 with both radii 1 has volume (Pi / 3) * 2 * 3 = 2 * Pi. */
  lemma SectionVolumeExample(a: Sample, b: Sample, dist: DistanceFunction)
    requires a.radius == 1.0 && b.radius == 1.0 && dist(a.point, b.point) == 2.0
    ensures SectionVolume(Section([a, b]), dist) == 2.0 * Pi
  {
    SegmentSumOfOneSegment([a, b], SegmentVolume(dist));
  }

  /** One length per section, in section order. */
  function SectionsLengthDistributions(morphology: Morphology, dist: DistanceFunction): (data: seq<real>)
    ensures |data| == |morphology.sectionsList|
    ensures forall i :: 0 <= i < |data| ==> data[i] == SectionLength(morphology.sectionsList[i], dist)
  {
    MapSeq(morphology.sectionsList, (s: Section) => SectionLength(s, dist))
  }

  /** One average radius per section, in section order; every section must have samples. */
  function SectionsAverageRadiusDistributions(morphology: Morphology): (data: seq<real>)
    requires forall i :: 0 <= i < |morphology.sectionsList| ==> |morphology.sectionsList[i].samples| > 0
    ensures |data| == |morphology.sectionsList|
    ensures forall i :: 0 <= i < |data| ==> data[i] == SectionAverageRadius(morphology.sectionsList[i])
  {
    AverageRadii(morphology.sectionsList)
  }

  /** The average radius of each section of a list, in list order. */
  function AverageRadii(sections: seq<Section>): (data: seq<real>)
    requires forall i :: 0 <= i < |sections| ==> |sections[i].samples| > 0
    ensures |data| == |sections|
    ensures forall i :: 0 <= i < |data| ==> data[i] == SectionAverageRadius(sections[i])
  {
    if |sections| == 0 then []
    else AverageRadii(sections[..|sections| - 1]) + [SectionAverageRadius(sections[|sections| - 1])]
  }

  /** One surface area per section, in section order. */
  function SectionsSurfaceAreaDistribution(morphology: Morphology, dist: DistanceFunction, sqrt: SqrtFunction)
    : (data: seq<real>)
    ensures |data| == |morphology.sectionsList|
    ensures forall i :: 0 <= i < |data| ==>
      data[i] == SectionSurfaceArea(morphology.sectionsList[i], dist, sqrt)
  {
    MapSeq(morphology.sectionsList, (s: Section) => SectionSurfaceArea(s, dist, sqrt))
  }

  /** One volume per section, in section order. */
  function SectionsVolumeDistribution(morphology: Morphology, dist: DistanceFunction): (data: seq<real>)
    ensures |data| == |morphology.sectionsList|
    ensures forall i :: 0 <= i < |data| ==> data[i] == SectionVolume(morphology.sectionsList[i], dist)
  {
    MapSeq(morphology.sectionsList, (s: Section) => SectionVolume(s, dist))
  }

  /** Minimum, maximum and average section length. */
  datatype LengthSummary = LengthSummary(minimum: real, maximum: real, average: real)

  /** Length summary of a non-empty section list: the minimum and maximum are lengths of
      actual sections and bound every section's length, and the average lies between
      them. */
  function AnalyzeSectionsLength(sections: seq<Section>, dist: DistanceFunction): (r: LengthSummary)
    requires |sections| > 0
    ensures forall i :: 0 <= i < |sections| ==>
      r.minimum <= SectionLength(sections[i], dist) <= r.maximum
    ensures exists i :: 0 <= i < |sections| && r.minimum == SectionLength(sections[i], dist)
    ensures exists i :: 0 <= i < |sections| && r.maximum == SectionLength(sections[i], dist)
    ensures r.minimum <= r.average <= r.maximum
    ensures r.average == Mean(SectionsLengthDistributions(Morphology(sections), dist))
  {
    var lengths := MapSeq(sections, (s: Section) => SectionLength(s, dist));
    MeanBetweenMinAndMax(lengths);
    LengthSummary(Min(lengths), Max(lengths), Mean(lengths))
  }

  /** With a distance that is never negative, the shortest section length is not
      negative. */
  lemma AnalyzeSectionsLengthNonNegative(sections: seq<Section>, dist: DistanceFunction)
    requires |sections| > 0 && NonNegativeDist(dist)
    ensures 0.0 <= AnalyzeSectionsLength(sections, dist).minimum
  {
    var r := AnalyzeSectionsLength(sections, dist);
    var i :| 0 <= i < |sections| && r.minimum == SectionLength(sections[i], dist);
    SectionLengthNonNegative(sections[i], dist);
  }
}

=== FILE: sequences.dfy ===
/** Generic sequence helpers shared by the kernels: element distinctness, counting and
    filtering the elements that satisfy a predicate, reversal, summing natural numbers
    and mapping a total function over a sequence in order. */
module Sequences {

  /** True iff no value occurs twice in `s`. */
  predicate Distinct<T(==)>(s: seq<T>) {
    forall i, j :: 0 <= i < j < |s| ==> s[i] != s[j]
  }

  /** The number of elements of `s` that satisfy `p`, counted front to back. */
  function CountWhere<T>(s: seq<T>, p: T -> bool): (n: nat)
    ensures n <= |s|
    ensures n == 0 <==> forall i :: 0 <= i < |s| ==> !p(s[i])
    ensures n == |s| <==> forall i :: 0 <= i < |s| ==> p(s[i])
  {
    if |s| == 0 then 0
    else (if p(s[0]) then 1 else 0) + CountWhere(s[1..], p)
  }

  /** Counting distributes over concatenation. */
  lemma {:induction false} CountWhereAppend<T>(a: seq<T>, b: seq<T>, p: T -> bool)
    ensures CountWhere(a + b, p) == CountWhere(a, p) + CountWhere(b, p)
  {
    if |a| == 0 {
      assert a + b == b;
    } else {
      assert (a + b)[1..] == a[1..] + b;
      CountWhereAppend(a[1..], b, p);
    }
  }

  /** Counting with a predicate that implies another never counts more. */
  lemma {:induction false} CountWhereMonotone<T>(s: seq<T>, p: T -> bool, q: T -> bool)
    requires forall i :: 0 <= i < |s| && p(s[i]) ==> q(s[i])
    ensures CountWhere(s, p) <= CountWhere(s, q)
  {
    if |s| > 0 {
      CountWhereMonotone(s[1..], p, q);
    }
  }

  /** The in-order sub-sequence of `s` of the elements that satisfy `p`: it keeps exactly
      the elements of `s` that satisfy `p`. */
  function Filter<T>(s: seq<T>, p: T -> bool): (r: seq<T>)
    ensures |r| <= |s|
    ensures forall i :: 0 <= i < |r| ==> p(r[i])
    ensures forall i :: 0 <= i < |r| ==> r[i] in s
    ensures forall x :: x in s && p(x) ==> x in r
  {
    if |s| == 0 then []
    else (if p(s[0]) then [s[0]] else []) + Filter(s[1..], p)
  }

  /** Filtering and counting agree: the filtered list is as long as the count. */
  lemma {:induction false} FilterLengthIsCount<T>(s: seq<T>, p: T -> bool)
    ensures |Filter(s, p)| == CountWhere(s, p)
  {
    if |s| > 0 {
      FilterLengthIsCount(s[1..], p);
    }
  }

  /** Filtering keeps multiplicities: the result is a sub-multiset of `s`, and every
      element that satisfies `p` occurs in it exactly as often as in `s`. */
  lemma {:induction false} FilterMultiset<T>(s: seq<T>, p: T -> bool)
    ensures multiset(Filter(s, p)) <= multiset(s)
    ensures forall x :: p(x) ==> multiset(Filter(s, p))[x] == multiset(s)[x]
  {
    if |s| > 0 {
      FilterMultiset(s[1..], p);
      assert s == [s[0]] + s[1..];
    }
  }

  /** The elements of `s` in reverse order. */
  function Reverse<T>(s: seq<T>): (r: seq<T>)
    ensures |r| == |s|
    ensures forall i :: 0 <= i < |s| ==> r[i] == s[|s| - 1 - i]
  {
    if |s| == 0 then [] else [s[|s| - 1]] + Reverse(s[..|s| - 1])
  }

  /** Sum of a sequence of natural numbers. */
  function SumNat(s: seq<nat>): nat {
    if |s| == 0 then 0 else s[0] + SumNat(s[1..])
  }

  /** Summing distributes over concatenation. */
  lemma {:induction false} SumNatAppend(a: seq<nat>, b: seq<nat>)
    ensures SumNat(a + b) == SumNat(a) + SumNat(b)
  {
    if |a| == 0 {
      assert a + b == b;
    } else {
      assert (a + b)[1..] == a[1..] + b;
      SumNatAppend(a[1..], b);
    }
  }

  /** Applies `f` to every element of `s`, keeping the order: the result has one entry
      per element and its i-th entry is `f(s[i])`. */
  function MapSeq<T, U>(s: seq<T>, f: T -> U): (r: seq<U>)
    ensures |r| == |s|
    ensures forall i :: 0 <= i < |s| ==> r[i] == f(s[i])
  {
    if |s| == 0 then []
    else MapSeq(s[..|s| - 1], f) + [f(s[|s| - 1])]
  }
}

=== FILE: shading.dfy ===
/** The shaders the meshes and morphologies can be rendered with: the shader identifiers,
    the list of shaders offered in the interface, and the parser from command-line
    keywords to shaders. */
module Shading {
  import opened Sequences

  /** The shader identifiers, as the strings the interface stores. */
  const Flat: string := "FLAT_SHADER"
  const FlatTransparent: string := "FLAT_TRANSPARENT_SHADER"
  const LambertWard: string := "LAMBERT_WARD_SHADER"
  const Toon: string := "TOON_SHADER"
  const Transparent: string := "TRANSPARENT_SHADER"
  const Glossy: string := "GLOSSY_SHADER"
  const Cracky: string := "CRACKY_SHADER"
  const Marble: string := "MARBLE_SHADER"
  const GlossyBumpy: string := "GLOSSY_BUMPY_SHADER"
  const ElectronLight: string := "ELECTRON_LIGHT_SHADER"
  const ElectronDark: string := "ELECTRON_DARK_SHADER"
  const SuperElectronLight: string := "SUPER_ELECTRON_LIGHT_SHADER"
  const SuperElectronDark: string := "SUPER_ELECTRON_DARK_SHADER"
  const SubSurfaceScattering: string := "SUB_SURFACE_SCATTERING_SHADER"
  const Plastic: string := "PLASTIC_SHADER"
  const WireFrame: string := "WIREFRAME_SHADER"

  /** All sixteen shaders, in declaration order. */
  const AllShaders: seq<string> := [
    Flat, FlatTransparent, LambertWard, Toon, Transparent, Glossy, Cracky, Marble,
    GlossyBumpy, ElectronLight, ElectronDark, SuperElectronLight, SuperElectronDark,
    SubSurfaceScattering, Plastic, WireFrame]

  /** Identifiers of the shaders offered in the interface, in menu order (the labels and
      descriptions of the menu entries are not modelled). */
  const ShaderItems: seq<string> := [
    LambertWard, Transparent, Flat, FlatTransparent, Toon, ElectronLight, ElectronDark,
    SuperElectronLight, SuperElectronDark, WireFrame, Glossy, Marble, Cracky]

  /** The keywords the parser recognises, each with the shader it selects, in the order
      the parser tests them. */
  const Keywords: seq<(string, string)> := [
    ("flat", Flat), ("flat-transparent", FlatTransparent), ("electron-light", ElectronLight),
    ("electron-dark", ElectronDark), ("super-electron-light", SuperElectronLight),
    ("super-electron-dark", SuperElectronDark), ("transparent", Transparent),
    ("glossy", Glossy), ("glossy-bumpy", GlossyBumpy), ("lambert", LambertWard),
    ("toon", LambertWard), ("wireframe", WireFrame)]

  /** The shader of the first keyword of `table`, from position `i` on, equal to
      `argument`, or the Lambert Ward shader when there is none. */
  function LookupFrom(table: seq<(string, string)>, i: nat, argument: string): string
    decreases |table| - i
  {
    if |table| <= i then LambertWard
    else if table[i].0 == argument then table[i].1
    else LookupFrom(table, i + 1, argument)
  }

  /** Parses a keyword into a shader; any unrecognised keyword gives the Lambert Ward
      shader, so the parser is total. "toon" also gives Lambert Ward, not the toon
      shader, and the parser never yields the toon, marble, cracky, plastic or
      sub-surface scattering shaders. */
  function GetEnum(argument: string): (r: string)
    ensures r in AllShaders
    ensures r != Toon && r != Marble && r != Cracky && r != Plastic && r != SubSurfaceScattering
    ensures argument == "toon" ==> r == LambertWard
  {
    if argument == "flat" then Flat
    else if argument == "flat-transparent" then FlatTransparent
    else if argument == "electron-light" then ElectronLight
    else if argument == "electron-dark" then ElectronDark
    else if argument == "super-electron-light" then SuperElectronLight
    else if argument == "super-electron-dark" then SuperElectronDark
    else if argument == "transparent" then Transparent
    else if argument == "glossy" then Glossy
    else if argument == "glossy-bumpy" then GlossyBumpy
    else if argument == "lambert" then LambertWard
    else if argument == "toon" then LambertWard
    else if argument == "wireframe" then WireFrame
    else LambertWard
  }

  /** The keyword that selects a shader other than Lambert Ward that the parser can
      produce. */
  function KeywordOf(shader: string): (keyword: string)
    requires shader in AllShaders && shader != LambertWard
    requires shader != Toon && shader != Marble && shader != Cracky
    requires shader != Plastic && shader != SubSurfaceScattering
    ensures (keyword, shader) in Keywords
  {
    if shader == Flat then "flat"
    else if shader == FlatTransparent then "flat-transparent"
    else if shader == ElectronLight then "electron-light"
    else if shader == ElectronDark then "electron-dark"
    else if shader == SuperElectronLight then "super-electron-light"
    else if shader == SuperElectronDark then "super-electron-dark"
    else if shader == Transparent then "transparent"
    else if shader == Glossy then "glossy"
    else if shader == GlossyBumpy then "glossy-bumpy"
    else "wireframe"
  }

  /** The sixteen shader identifiers are pairwise different. */
  lemma ShadersDistinct()
    ensures |AllShaders| == 16 && Distinct(AllShaders)
  {
  }

  /** The parser agrees with a scan of the keyword table: the first entry whose keyword
      equals the argument gives the shader, and Lambert Ward is used when no entry
      matches. */
  lemma GetEnumIsTableLookup(argument: string)
    ensures GetEnum(argument) == LookupFrom(Keywords, 0, argument)
  {
    var t := Keywords;
    assert LookupFrom(t, 11, argument) == if argument == "wireframe" then WireFrame else LambertWard;
    assert LookupFrom(t, 10, argument) == if argument == "toon" then LambertWard else LookupFrom(t, 11, argument);
    assert LookupFrom(t, 9, argument) == if argument == "lambert" then LambertWard else LookupFrom(t, 10, argument);
    assert LookupFrom(t, 8, argument) == if argument == "glossy-bumpy" then GlossyBumpy else LookupFrom(t, 9, argument);
    assert LookupFrom(t, 7, argument) == if argument == "glossy" then Glossy else LookupFrom(t, 8, argument);
    assert LookupFrom(t, 6, argument) == if argument == "transparent" then Transparent else LookupFrom(t, 7, argument);
    assert LookupFrom(t, 5, argument) == if argument == "super-electron-dark" then SuperElectronDark else LookupFrom(t, 6, argument);
    assert LookupFrom(t, 4, argument) == if argument == "super-electron-light" then SuperElectronLight else LookupFrom(t, 5, argument);
    assert LookupFrom(t, 3, argument) == if argument == "electron-dark" then ElectronDark else LookupFrom(t, 4, argument);
    assert LookupFrom(t, 2, argument) == if argument == "electron-light" then ElectronLight else LookupFrom(t, 3, argument);
    assert LookupFrom(t, 1, argument) == if argument == "flat-transparent" then FlatTransparent else LookupFrom(t, 2, argument);
  }

  /** Every shader other than Lambert Ward that the parser can produce is selected by its
      keyword. */
  lemma GetEnumOfKeyword(shader: string)
    requires shader in AllShaders && shader != LambertWard
    requires shader != Toon && shader != Marble && shader != Cracky
    requires shader != Plastic && shader != SubSurfaceScattering
    ensures GetEnum(KeywordOf(shader)) == shader
  {
  }

  /** A keyword that selects anything but Lambert Ward is that shader's keyword, so no two
      keywords select the same shader other than Lambert Ward. */
  lemma KeywordOfGetEnum(argument: string)
    requires GetEnum(argument) != LambertWard
    ensures KeywordOf(GetEnum(argument)) == argument
  {
  }

  /** Lambert Ward comes back exactly for "lambert", for "toon" and for every keyword the
      parser does not know. */
  lemma GetEnumLambertWard(argument: string)
    ensures GetEnum(argument) == LambertWard <==>
      argument == "lambert" || argument == "toon" || forall k :: k in Keywords ==> k.0 != argument
  {
  }

  /** The menu lists distinct shaders, and every shader the parser yields is offered in
      the menu except the glossy bumpy shader, which the menu lacks. */
  lemma ShaderItemsFacts(argument: string)
    ensures Distinct(ShaderItems)
    ensures GetEnum(argument) != GlossyBumpy ==> GetEnum(argument) in ShaderItems
    ensures GetEnum("glossy-bumpy") == GlossyBumpy && GlossyBumpy !in ShaderItems
  {
  }

  /** The menu offers shaders the parser cannot select: toon, marble and cracky. */
  lemma MenuOnlyShaders(argument: string)
    ensures Toon in ShaderItems && Marble in ShaderItems && Cracky in ShaderItems
    ensures GetEnum(argument) != Toon && GetEnum(argument) != Marble && GetEnum(argument) != Cracky
  {
  }
}

=== FILE: skeleton.dfy ===
/** The skeleton data the statistics kernels read: a morphology is an ordered list of
    sections, a section an ordered list of samples, and a sample a 3D point with a radius.
    Radii, lengths, areas and volumes are real numbers; the Euclidean norm and the square
    root are supplied by the caller as functions, since their numerics live outside the
    kernels. */
module Skeleton {

  /** A point in space. */
  datatype Point = Point(x: real, y: real, z: real)

  /** One measured point along a vessel: its position and its radius. */
  datatype Sample = Sample(point: Point, radius: real)

  /** A non-branching chain of samples; consecutive samples form the section's segments. */
  datatype Section = Section(samples: seq<Sample>)

  /** A loaded morphology, as far as the kernels see it: its list of sections. */
  datatype Morphology = Morphology(sectionsList: seq<Section>)

  /** The distance between two points (the length of their difference vector). */
  type DistanceFunction = (Point, Point) -> real

  /** The square-root function used by the surface-area kernel. */
  type SqrtFunction = real -> real

  /** The value of Python's `math.pi`. */
  const Pi: real := 3.141592653589793

  /** A distance function that never yields a negative length. */
  ghost predicate NonNegativeDist(dist: DistanceFunction) {
    forall p, q :: 0.0 <= dist(p, q)
  }

  /** Squared Euclidean distance between two points. */
  function SquaredDistance(p: Point, q: Point): real {
    (p.x - q.x) * (p.x - q.x) + (p.y - q.y) * (p.y - q.y) + (p.z - q.z) * (p.z - q.z)
  }

  /** The distance function is the Euclidean one: the non-negative root of the squared
      distance. */
  ghost predicate Euclidean(dist: DistanceFunction) {
    forall p, q :: 0.0 <= dist(p, q) && dist(p, q) * dist(p, q) == SquaredDistance(p, q)
  }

  /** The function is the non-negative square root on non-negative arguments. */
  ghost predicate IsSqrt(sqrt: SqrtFunction) {
    forall x :: 0.0 <= x ==> 0.0 <= sqrt(x) && sqrt(x) * sqrt(x) == x
  }

  /** A distance function that does not depend on the order of its two points. */
  ghost predicate Symmetric(dist: DistanceFunction) {
    forall p, q :: dist(p, q) == dist(q, p)
  }

  /** The radii of a section's samples, in sample order. */
  function Radii(section: Section): (r: seq<real>)
    ensures |r| == |section.samples|
    ensures forall j :: 0 <= j < |r| ==> r[j] == section.samples[j].radius
  {
    seq(|section.samples|, j requires 0 <= j < |section.samples| => section.samples[j].radius)
  }

  /** Every sample of the section has a non-negative radius. */
  predicate NonNegativeRadii(section: Section) {
    forall j :: 0 <= j < |section.samples| ==> 0.0 <= section.samples[j].radius
  }
}

=== FILE: statistics.dfy ===
/** Reductions over lists of real numbers as the kernels use them: `sum`, `min`, `max`
    and the arithmetic mean `sum(xs) / len(xs)`. */
module Statistics {

  /** Sum of the elements, accumulated front to back. */
  function Sum(s: seq<real>): real {
    if |s| == 0 then 0.0 else s[0] + Sum(s[1..])
  }

  /** Smallest element (Python's `min` on a non-empty list). */
  function Min(s: seq<real>): (m: real)
    requires |s| > 0
    ensures m in s
    ensures forall i :: 0 <= i < |s| ==> m <= s[i]
  {
    if |s| == 1 then s[0]
    else
      var rest := Min(s[1..]);
      if s[0] <= rest then s[0] else rest
  }

  /** Largest element (Python's `max` on a non-empty list). */
  function Max(s: seq<real>): (m: real)
    requires |s| > 0
    ensures m in s
    ensures forall i :: 0 <= i < |s| ==> s[i] <= m
  {
    if |s| == 1 then s[0]
    else
      var rest := Max(s[1..]);
      if rest <= s[0] then s[0] else rest
  }

  /** A sum of `|s|` values that all lie in `[lo, hi]` lies in `[|s| * lo, |s| * hi]`. */
  lemma {:induction false} SumBounds(s: seq<real>, lo: real, hi: real)
    requires forall i :: 0 <= i < |s| ==> lo <= s[i] <= hi
    ensures (|s| as real) * lo <= Sum(s) <= (|s| as real) * hi
  {
    if |s| > 0 {
      SumBounds(s[1..], lo, hi);
      assert (|s| as real) * lo == lo + ((|s| - 1) as real) * lo;
      assert (|s| as real) * hi == hi + ((|s| - 1) as real) * hi;
    }
  }

  /** Arithmetic mean `sum(s) / len(s)`. */
  function Mean(s: seq<real>): real
    requires |s| > 0
  {
    Sum(s) / (|s| as real)
  }

  /** A mean of values that all lie in `[lo, hi]` lies in `[lo, hi]`. */
  lemma MeanBounds(s: seq<real>, lo: real, hi: real)
    requires |s| > 0
    requires forall i :: 0 <= i < |s| ==> lo <= s[i] <= hi
    ensures lo <= Mean(s) <= hi
  {
    var n, x := |s| as real, Sum(s);
    SumBounds(s, lo, hi);
    DivideLower(x, n, lo);
    DivideUpper(x, n, hi);
  }

  /** The mean lies between the smallest and the largest element. */
  lemma MeanBetweenMinAndMax(s: seq<real>)
    requires |s| > 0
    ensures Min(s) <= Mean(s) <= Max(s)
  {
    MeanBounds(s, Min(s), Max(s));
  }

  /** Dividing `n * lo <= x` by a positive `n`. */
  lemma DivideLower(x: real, n: real, lo: real)
    requires 0.0 < n && n * lo <= x
    ensures lo <= x / n
  {
  }

  /** Dividing `x <= n * hi` by a positive `n`. */
  lemma DivideUpper(x: real, n: real, hi: real)
    requires 0.0 < n && x <= n * hi
    ensures x / n <= hi
  {
  }
}
